=== FILE: README.md ===
# Study Buddy store model

Study Buddy is a small Flask application where students register, enroll in
courses from a seeded catalog, create study sessions for their courses, and
join or leave each other's sessions. Everything it remembers is kept in five
SQLite tables: `users`, `courses`, `user_courses`, `study_sessions` and
`session_participants`. This project models those tables and every request
handler that reads or writes them.

- The store is an immutable `Store` value. Each table is a `Table`: its rows
  in rowid order, plus the AUTOINCREMENT counter.
- Each state-changing handler is a pure function. It takes a store and
  returns the new store together with an `Outcome` tag, which stands for the
  message the handler flashes.
- Each read-only page is a function from a store to the rows the page's
  query returns.
- `Valid` is the conjunction of the constraints SQLite enforces: distinct
  rowids below the counter, unique usernames and emails,
  `UNIQUE(user_id, course_id)` and `UNIQUE(session_id, user_id)`.

Modules:

- `Tables`: AUTOINCREMENT tables, plus the `INSERT`, `DELETE ... WHERE` and
  primary-key lookup operations on them.
- `Schema`: the five tables, their constraints and the outcome tags.
- `Accounts`: `register` and `login`.
- `Enrollments`: `enroll_course` and `drop_course`.
- `StudySessions`: `create_session`, `join_session` and `leave_session`.
- `Ordering`: the BINARY text collation, and a sort for `ORDER BY`.
- `Queries`: the `sessions`, `dashboard` and `courses` pages.
- `Handlers`: the sign-in check in front of every handler, and runs of many
  requests.
- `Scenario`: the register, enroll, create, list, join walk-through.

Three points where the code behaves differently from what its schema or
documentation suggests. The model follows the code:

- SQLite does not enforce the declared foreign keys, because the application
  never enables `PRAGMA foreign_keys`. So enrolling in a missing course and
  joining a missing session both succeed, and no invariant claims that ids
  point at existing rows.
- `create_session` names the duration and capacity columns in its `INSERT`.
  The schema defaults of 60 minutes and 4 participants therefore never apply
  to sessions created by the application. Only `status` takes its default,
  `'open'`.
- The catalog seeding in `init_db` uses `INSERT OR IGNORE`, but `courses` has
  no unique column for an insert to conflict on. So every call of `init_db`
  appends the eight sample rows again (app.py:85-86). Nothing in app.py itself
  calls `init_db`.

## Model

| member | source | states |
|---|---|---|
| Tables.EmptyTable | app.py:17-23 | a freshly created table has no rows and hands out rowid 1 first |
| Tables.Insert | app.py:123-124 | an insert appends one row carrying the counter's rowid, keeps every earlier row, advances the counter, keeps rowids distinct and below the counter, and the new rowid belongs to no earlier row |
| Tables.DeleteWhere | app.py:231-232 | a `DELETE ... WHERE` keeps exactly the rows the condition does not match, never grows the table, keeps rowids well formed and leaves the counter alone, so rowids are never reused |
| Tables.Lookup | app.py:175-176 | the primary-key join finds a row with the requested rowid when one exists, and finds nothing exactly when no row carries that rowid |
| Tables.LookupFinds | app.py:175-176 | with distinct rowids, the lookup returns the one row that carries the rowid |
| Tables.AtMostOneMatch | app.py:40 | when all rows matching a condition share one rowid, at most one row matches; this is how a UNIQUE constraint bounds a selection |
| Tables.WhereSplits | app.py:231-232 | a delete condition and its complement split the table: the deleted rows and the kept rows add up to the whole table |
| Tables.PermutedRowsKeepIds | app.py:181 | reordering rows with distinct rowids still gives one output row per `GROUP BY s.id` key |
| Schema.Fresh | app.py:12-71 | `init_db` creates the tables holding no users, enrollments, sessions or participants, and the catalog as seeded |
| Schema.Valid | app.py:17-71 | the constraints SQLite enforces on the five tables: every table's rowids increase and stay below its AUTOINCREMENT counter, usernames and emails are unique, and `UNIQUE(user_id, course_id)` and `UNIQUE(session_id, user_id)` hold |
| Schema.FreshIsValid | app.py:17-71 | a freshly created database satisfies every constraint the schema declares |
| Accounts.Taken | app.py:114-115 | the `existing_user` lookup finds a row: some existing user has the given username or the given email |
| Accounts.Register | app.py:109-129 | "all fields are required" exactly when a field is empty; "already exists" exactly when the fields are filled and the username or the email is on file; in both cases the store is unchanged; otherwise exactly one user row is appended and nothing else changes |
| Accounts.RegisterPreservesValid | app.py:114-124 | registration keeps usernames and emails unique, as the schema's `UNIQUE` columns require |
| Accounts.NewcomerKeepsUnique | app.py:19-20 | appending a user whose username and email no existing row uses keeps both `UNIQUE` columns unique |
| Accounts.RegisterTwiceSameUsername | app.py:114-120 | registering an existing username again fails, whatever the non-empty email given, and adds no second user |
| Accounts.Login | app.py:139-150 | a successful login names a stored user with that username whose hash the password check accepts |
| Accounts.LoginExactlyWhenCredentialsMatch | app.py:140-146 | with unique usernames, login succeeds exactly when the password check accepts that user's stored hash, and it signs in as that user |
| Accounts.LoginUnknownUserFails | app.py:140-148 | login with a username nobody has fails |
| Accounts.LoginAfterRegister | app.py:122-146 | a user who just registered can log in with the same password and is signed in under the new rowid |
| Enrollments.Enroll | app.py:215-221 | "already enrolled" exactly when the pair has a row, and then the store is unchanged; otherwise one row is appended; only `user_courses` changes; afterwards the caller is enrolled either way |
| Enrollments.EnrollPreservesValid | app.py:216-217 | enrolling keeps `UNIQUE(user_id, course_id)` and the rowid invariant |
| Enrollments.EnrollIdempotent | app.py:215-221 | enrolling twice is the same as enrolling once, and the second attempt reports "already enrolled" |
| Enrollments.EnrolledPairHasOneRow | app.py:40 | an enrolled pair has exactly one `user_courses` row |
| Enrollments.Drop | app.py:230-237 | dropping always reports success, removes exactly the caller's row for that course, touches no other table, keeps the counter, and leaves the caller not enrolled |
| Enrollments.DropPreservesValid | app.py:231-232 | dropping keeps every schema constraint |
| Enrollments.DropAbsentIsNoop | app.py:231-236 | dropping a course one is not enrolled in leaves the store unchanged and still reports success |
| Enrollments.DropRemovesOneRow | app.py:231-232 | dropping shrinks `user_courses` by one row when the caller was enrolled, and by none otherwise |
| Enrollments.DropUndoesEnroll | app.py:215-232 | dropping right after a fresh enrollment restores the rows; only the rowid counter has moved on |
| StudySessions.CreateSession | app.py:281-287 | creation always succeeds and appends one session owned by the caller: the form's fields are stored as given, including duration and capacity, and the status is 'open'; no other table changes |
| StudySessions.CreateSessionPreservesValid | app.py:281-287 | creating a session keeps every schema constraint |
| StudySessions.CreatorIsNotAutoJoined | app.py:281-287 | creating a session does not make its creator a participant |
| StudySessions.Join | app.py:310-319 | "already joined" exactly when the caller has a participation row for the session, and then nothing changes; otherwise one 'confirmed' row is appended; only `session_participants` changes |
| StudySessions.JoinPreservesValid | app.py:312-313 | joining keeps `UNIQUE(session_id, user_id)` and the rowid invariant |
| StudySessions.JoinIdempotent | app.py:311-317 | joining twice is the same as joining once, and the second attempt reports "already joined" |
| StudySessions.JoinedPairHasOneRow | app.py:70 | a caller who has joined has exactly one participation row for that session |
| StudySessions.JoinIgnoresSessions | app.py:312-313 | joining never reads the sessions table, so a full or closed session, or one that does not exist, can still be joined |
| StudySessions.Leave | app.py:326-333 | leaving always reports success, removes exactly the caller's row for that session, touches no other table and keeps the counter |
| StudySessions.LeavePreservesValid | app.py:327-328 | leaving keeps every schema constraint |
| StudySessions.LeaveAbsentIsNoop | app.py:327-332 | leaving a session one has not joined changes nothing |
| StudySessions.JoinAfterLeave | app.py:310-328 | after leaving, joining succeeds again and appends a 'confirmed' row whose rowid is the counter's value, a rowid no row of the store before the leave carries |
| StudySessions.LeaveUndoesJoin | app.py:311-328 | leaving right after a fresh join restores the rows; only the counter has moved on |
| Ordering.TextLe | app.py:198 | the BINARY collation compares texts code point by code point; a text sorts no later than any text it is a prefix of, and strictly after any proper prefix of itself |
| Ordering.TextLeTotal | app.py:198 | any two texts are comparable under the BINARY collation |
| Ordering.TextLeTransitive | app.py:198 | the BINARY collation is transitive |
| Ordering.TextLeAntisymmetric | app.py:198 | two texts that sort at or before each other are equal |
| Ordering.SortBy | app.py:182 | sorting returns the same rows, with the same multiplicities, in order |
| Ordering.SortByMembers | app.py:182 | sorting neither adds nor drops a row |
| Queries.SessionLe | app.py:182 | `ORDER BY s.session_date, s.session_time`: one session sorts no later than another when its date is earlier, or the dates are equal and its time is no later (the sessions page repeats the clause at app.py:259) |
| Queries.SessionLeIsTotalPreorder | app.py:182 | ordering by (session_date, session_time) is total and transitive |
| Queries.CourseLe | app.py:198 | `ORDER BY department, course_code` under the BINARY collation: departments are compared first, and course codes only within one department |
| Queries.CourseLeIsTotalPreorder | app.py:198 | ordering by (department, course_code) is total and transitive |
| Queries.UpcomingSessions | app.py:245-260 | the query returns exactly the sessions dated today or later, of a course the caller is enrolled in, whose course and creator rows exist; they are ordered by date then time, and no session appears twice |
| Queries.Qualifies | app.py:251-257 | a session is on the upcoming pages exactly when it is dated today or later, its course is one the caller is enrolled in, and the inner joins find its course row and its creator's user row |
| Queries.ConfirmedCount | app.py:253 | the counted rows are exactly the session's participation rows with status 'confirmed'; the count is zero exactly when the session has no confirmed row, and never exceeds the table's size |
| Queries.CallerRows | app.py:254 | the second join picks exactly the caller's own participation rows for the session |
| Queries.ListedCount | app.py:247-254 | the sessions page's `COUNT(sp.id)` over both LEFT JOINs: never below the number of confirmed participants, zero exactly when there are none, and equal to it whenever the caller has at most one row for the session |
| Queries.UserStatus | app.py:249-254 | the caller's status is 'not_joined' when the second join finds no row, and otherwise the status of one of the caller's own rows for the session |
| Queries.Describe | app.py:246-252 | a listed line carries the session, the code and name of its course row, and the username of its creator row |
| Queries.DashboardRows | app.py:171-181 | each dashboard line carries its session and that session's confirmed-participant count |
| Queries.CoursesOf | app.py:164-169 | every listed course is a catalog row the caller has an enrollment for; with distinct rowids every such course is listed |
| Queries.EnrolledCourses | app.py:164-169 | the dashboard's course list contains exactly the catalog rows the caller is enrolled in |
| Queries.Dashboard | app.py:162-190 | the dashboard shows the enrolled courses and the first min(5, n) of the n upcoming sessions, each with its confirmed count |
| Queries.DashboardShowsEarliest | app.py:171-184 | at most five sessions are shown, each qualifying and in (date, time) order; every qualifying session left out is no earlier than every session shown |
| Queries.ListSessions | app.py:245-260 | the sessions page has one line per upcoming session, in the query's order; each line says whether the caller created the session, carries the two-join `COUNT(sp.id)` and the caller's status |
| Queries.SessionsPageListsExactlyUpcoming | app.py:255-259 | the sessions page lists no past session and no session of a course the caller is not enrolled in; it lists every qualifying session once, in (date, time) order |
| Queries.Annotate | app.py:246-254 | one sessions-page line: the session, and whether the caller created it; in a valid store the count is the number of confirmed participants; the status is 'not_joined' when the caller has no participation row, and in a valid store it is otherwise the status of the caller's own row |
| Queries.ListedCountIsConfirmedCount | app.py:247-254 | with `UNIQUE(session_id, user_id)` in force, the count on the sessions page is the number of confirmed participants, although the two joins could multiply it |
| Queries.UserStatusIsOwnRow | app.py:249-254 | the caller's status is 'not_joined' without a participation row, and otherwise the status of the caller's one row |
| Queries.ShownPrefix | app.py:182-183 | the first lines of a sorted result are sorted, and every row that the limit leaves out sorts no earlier than any line shown |
| Queries.DashboardIsPrefixOfSessions | app.py:171-184 | with the constraints in force, and with both pages breaking (date, time) ties in the model's one order, the dashboard's sessions are the first five lines of the sessions page, without the per-caller columns |
| Queries.DashboardLineIsSessionsLine | app.py:171-184 | under the model's one tie order, each dashboard line equals the matching sessions-page line, without its per-caller columns |
| Queries.EnrolledIds | app.py:199-202 | the courses page marks a course id as enrolled exactly when the caller has an enrollment for it |
| Queries.EnrolledIdsDistinct | app.py:199-202 | with `UNIQUE(user_id, course_id)` in force, no course id is listed twice |
| Queries.CoursesOfDistinct | app.py:164-169 | with `UNIQUE(user_id, course_id)` in force, the dashboard lists no course twice |
| Queries.EnrolledCoursesDistinct | app.py:164-202 | in a valid store, the dashboard's course list and the courses page's enrolled ids both repeat nothing |
| Queries.CoursesPage | app.py:197-207 | the courses page shows the whole catalog, every row with its multiplicity, ordered by department then course code; a course is marked enrolled exactly when the caller has an enrollment for it |
| Handlers.Handle | app.py:209-212 | a signed-out caller is turned away with the store unchanged, except for registration; a signed-in caller whose URL id is above 2^63 - 1 gets the server error with the store unchanged; every request keeps the constraints, never writes the catalog, only appends users and sessions, and new sessions are 'open' |
| Handlers.HandleSignedIn | app.py:209-333 | a signed-in user's request fails with the store unchanged exactly when its URL id is above 2^63 - 1, the largest integer a statement parameter can carry; every request keeps the constraints, leaves users and the catalog alone, only appends sessions, and every new session is 'open' |
| Handlers.UrlIdBoundary | app.py:209-220 | a course id of 2^63 - 1 reaches the enroll statement, while 2^63 fails, for enrolling and for joining, with the store unchanged |
| Handlers.Run | app.py:102-333 | over any sequence of requests the constraints hold throughout, the catalog stays as seeded, no user or session is removed or rewritten, and no session's status ever leaves 'open' |
| Handlers.SignedOutRunChangesNothing | app.py:209-212 | any number of signed-out requests to handlers other than registration leave the store as it was |
| Scenario.Catalog | app.py:75 | the one-course catalog of the walk-through is a well-formed table |
| Scenario.RegisterThenLogin | app.py:109-146 | on a fresh database "alice" registers, gets rowid 1, and can then log in |
| Scenario.EnrollThenCourses | app.py:199-221 | enrolling "alice" in course 1 succeeds and the courses page then marks course 1 as enrolled |
| Scenario.CreatedFacts | app.py:281-287 | the new session gets rowid 1, belongs to course 1 and to "alice", and nobody participates yet |
| Scenario.CreateThenList | app.py:245-260 | the new session is listed alone with "alice" as its creator, a count of 0 and the status 'not_joined' |
| Scenario.JoinedFacts | app.py:310-315 | the creator's join succeeds and leaves exactly one participation row, 'confirmed', for session 1 |
| Scenario.JoinThenList | app.py:245-319 | after "alice" joins, the listing shows the status 'confirmed' and a count of 1 |
| Scenario.EndToEnd | app.py:102-319 | the whole walk-through: register, log in, enroll, see the enrollment, create a session and see it unjoined, join it and see yourself confirmed and counted |

## Left out

- HTTP is not modelled: Flask routing, templates, redirects, and the text of flashed messages. An `Outcome` tag stands for each message, and `IdTooLarge` for the HTTP 500 a too-large URL id ends in.
- `logout` and `index` are not modelled: they touch only the cookie session, not the store.
- The cookie session is not modelled: the signed-in user's id is passed to every handler as an argument.
- Password hashing is not modelled: `Register` receives the hash as an argument, and `Login` receives the password check as a function `verify(hash, password)`.
- SQLite connections, commits and concurrent requests are not modelled. Each handler is one atomic step.
- `date('now')` is not modelled: the queries take `today` as an argument.
- Dates and times are naturals. Their order stands for the order of ISO-formatted text. A date that is not ISO-formatted would compare differently as text, and the model does not cover that case.
- Form values in `create_session` are not converted: duration and capacity are integers as given. SQLite's type affinity would keep a non-numeric value as text; the model does not cover that case.
- A missing form field is not modelled: the application answers 400 for it before touching the store.
- The `created_at` and `joined_at` timestamp columns are not modelled. `created_at` comes back in `s.*` on both session queries (app.py:172, 246) and in `SELECT *` at login (app.py:140), but the clock sets it and no statement compares or orders by it; `StudySession` and `UpcomingRow` leave it out. `joined_at` is never selected.
- The `GET` page of `create_session` is not modelled: it is a read-only listing of the caller's courses, the same join as the dashboard's course list (`Queries.CoursesOf`).
- Catalog seeding in `init_db` is not modelled as an operation: the catalog is an argument of `Schema.Fresh`. Calling `init_db` again would append the sample rows again, because `courses` has no unique column.
- Enrollments.Enroll: takes the course id as an unbounded natural. An id above 2^63 - 1 cannot be bound to the `INSERT`; the exception is not the `IntegrityError` the handler catches, so the request ends in HTTP 500 before the store is touched. That path is modelled one level up, in `Handlers.HandleSignedIn`, which never calls `Enroll` with such an id.
- Enrollments.Drop: takes the course id as an unbounded natural; an id above 2^63 - 1 ends in HTTP 500 before the `DELETE` runs, modelled in `Handlers.HandleSignedIn`.
- StudySessions.Join: takes the session id as an unbounded natural; an id above 2^63 - 1 ends in HTTP 500 before the `INSERT` runs, modelled in `Handlers.HandleSignedIn`.
- StudySessions.Leave: takes the session id as an unbounded natural; an id above 2^63 - 1 ends in HTTP 500 before the `DELETE` runs, modelled in `Handlers.HandleSignedIn`.
- Queries.UpcomingSessions: SQL leaves the order of sessions with the same date and time open. The model fixes one order, and the contracts claim only sortedness, exact membership and distinct rowids.
- Queries.DashboardIsPrefixOfSessions: the dashboard and the sessions page are two separate statements, and SQL may break (date, time) ties differently in each, so with tied sessions the dashboard may show them in another order, or `LIMIT 5` may keep a different tied session. The equality holds only under the model's one tie order; `Queries.DashboardShowsEarliest` states what holds whatever the tie order.
- Queries.DashboardLineIsSessionsLine: the index-by-index equality holds only under the model's one tie order, for the same reason.
- Queries.EnrolledIds: the query has no `ORDER BY`. The model lists ids in `user_courses` rowid order, and the contracts claim only membership.
- Queries.UserStatus: with several caller rows in one group, SQLite may report any of them. The model takes the first. `Queries.UserStatusIsOwnRow` states the result only for a valid store, where there is at most one such row.
- StudySessions.CreatorIsNotAutoJoined: because foreign keys go unchecked, a participation row may already name the rowid the new session will get. The lemma assumes there is no such dangling row.

=== FILE: accounts.dfy ===
/**
 The account handlers: `register` and `login`. Password hashing is a call
 into a library the model does not see: `Register` receives the hash the
 library produced, and `Login` receives the library's check as the
 function `verify(hash, password)`.
 */
module Accounts {
  import opened Tables
  import opened Schema

  /** What `login` leaves in the cookie session: the user's id and name. */
  datatype LoginResult = SignedIn(userId: nat, username: string) | InvalidCredentials

  /** Some existing user already has this username, or this email. */
  predicate Taken(st: Store, username: string, email: string) {
    exists u :: u in st.users.rows && (u.val.username == username || u.val.email == email)
  }

  /**
   `register`: every field is required; a username or email already on file
   is refused; otherwise exactly one user row is appended.
   */
  function Register(st: Store, username: string, email: string, password: string, passwordHash: string): (r: Step)
    ensures r.outcome == MissingField <==> username == "" || email == "" || password == ""
    ensures r.outcome == UsernameOrEmailTaken <==>
      username != "" && email != "" && password != "" && Taken(st, username, email)
    ensures r.outcome in {Done, MissingField, UsernameOrEmailTaken}
    ensures r.outcome != Done ==> r.store == st
    ensures r.outcome == Done ==>
      && r.store.(users := st.users) == st
      && |r.store.users.rows| == |st.users.rows| + 1
      && r.store.users.rows[..|st.users.rows|] == st.users.rows
      && r.store.users.rows[|st.users.rows|] == Row(st.users.next, User(username, email, passwordHash))
  {
    if username == "" || email == "" || password == "" then
      Step(st, MissingField)
    else if Taken(st, username, email) then
      Step(st, UsernameOrEmailTaken)
    else
      Step(st.(users := Insert(st.users, User(username, email, passwordHash))), Done)
  }

  lemma RegisterPreservesValid(st: Store, username: string, email: string, password: string, passwordHash: string)
    requires Valid(st)
    ensures Valid(Register(st, username, email, password, passwordHash).store)
  {
    if username != "" && email != "" && password != "" && !Taken(st, username, email) {
      var added := Row(st.users.next, User(username, email, passwordHash));
      var users := Insert(st.users, added.val);
      assert Register(st, username, email, password, passwordHash).store == st.(users := users);
      assert users.rows == st.users.rows + [added];
      NewcomerKeepsUnique(st.users.rows, added);
    }
  }

  /** Appending a user whose name and email are both new keeps both columns unique. */
  lemma NewcomerKeepsUnique(rows: seq<Row<User>>, added: Row<User>)
    requires UniqueUsernames(rows) && UniqueEmails(rows)
    requires forall x :: x in rows ==> x.val.username != added.val.username && x.val.email != added.val.email
    ensures UniqueUsernames(rows + [added]) && UniqueEmails(rows + [added])
  {
    forall x | x in rows + [added] ensures x in rows || x == added { }
  }

  /**
   Registering a second time with the same username fails whatever the
   (non-empty) email, so two registrations add exactly one user.
   */
  lemma RegisterTwiceSameUsername(st: Store, username: string, email1: string, email2: string,
                                  password: string, hash1: string, hash2: string)
    requires Register(st, username, email1, password, hash1).outcome == Done
    requires email2 != ""
    ensures var once := Register(st, username, email1, password, hash1).store;
      var twice := Register(once, username, email2, password, hash2);
      && twice.outcome == UsernameOrEmailTaken
      && twice.store == once
      && |twice.store.users.rows| == |st.users.rows| + 1
  {
    var once := Register(st, username, email1, password, hash1).store;
    assert once.users.rows[|st.users.rows|] in once.users.rows;
    assert Taken(once, username, email2);
  }

  /**
   `login`: the user row with that username, if any, whose stored hash the
   library accepts for the password.
   */
  function Login(st: Store, username: string, password: string, verify: (string, string) -> bool): (r: LoginResult)
    ensures r.SignedIn? ==>
      && r.username == username
      && exists u :: u in st.users.rows && u.id == r.userId && u.val.username == username
                     && verify(u.val.passwordHash, password)
  {
    var matches := Where(st.users.rows, (u: User) => u.username == username);
    if |matches| == 0 then InvalidCredentials
    else
      var u := matches[0];
      assert u in matches;
      if verify(u.val.passwordHash, password) then SignedIn(u.id, u.val.username)
      else InvalidCredentials
  }

  /**
   With usernames unique, login succeeds exactly when a user with that
   username exists and the library accepts the password for its hash, and it
   then signs in as that user.
   */
  lemma LoginExactlyWhenCredentialsMatch(st: Store, username: string, password: string,
                                         verify: (string, string) -> bool, u: Row<User>)
    requires Valid(st)
    requires u in st.users.rows && u.val.username == username
    ensures Login(st, username, password, verify) ==
      if verify(u.val.passwordHash, password) then SignedIn(u.id, username) else InvalidCredentials
  {
    var matches := Where(st.users.rows, (x: User) => x.username == username);
    assert u in matches;
    var first := matches[0];
    assert first in matches;
    assert first.id == u.id;
    IncreasingIsDistinct(st.users.rows);
    var i :| 0 <= i < |st.users.rows| && st.users.rows[i] == first;
    var j :| 0 <= j < |st.users.rows| && st.users.rows[j] == u;
    assert i == j;
  }

  /** No user row with that username: login fails. */
  lemma LoginUnknownUserFails(st: Store, username: string, password: string, verify: (string, string) -> bool)
    requires forall u :: u in st.users.rows ==> u.val.username != username
    ensures Login(st, username, password, verify) == InvalidCredentials
  {
  }

  /** A user who just registered can log in with the same password. */
  lemma LoginAfterRegister(st: Store, username: string, email: string, password: string,
                           passwordHash: string, verify: (string, string) -> bool)
    requires Valid(st)
    requires Register(st, username, email, password, passwordHash).outcome == Done
    requires verify(passwordHash, password)
    ensures Login(Register(st, username, email, password, passwordHash).store, username, password, verify)
            == SignedIn(st.users.next, username)
  {
    var after := Register(st, username, email, password, passwordHash).store;
    RegisterPreservesValid(st, username, email, password, passwordHash);
    var u := after.users.rows[|st.users.rows|];
    assert u in after.users.rows;
    LoginExactlyWhenCredentialsMatch(after, username, password, verify, u);
  }
}

=== FILE: enrollments.dfy ===
/**
 The enrollment handlers `enroll_course` and `drop_course`. Both trust the
 caller id from the cookie session and the course id from the URL: neither
 checks that the course exists (foreign keys are not enforced).
 */
module Enrollments {
  import opened Tables
  import opened Schema

  /**
   `enroll_course`: inserts the pair; when `UNIQUE(user_id, course_id)`
   rejects the insert the handler reports "already enrolled" and the
   statement leaves the table, rowid counter included, as it was.
   */
  function Enroll(st: Store, userId: nat, courseId: nat): (r: Step)
    ensures r.outcome == AlreadyEnrolled <==> IsEnrolled(st, userId, courseId)
    ensures r.outcome in {Done, AlreadyEnrolled}
    ensures IsEnrolled(r.store, userId, courseId)
    ensures r.store.(enrollments := st.enrollments) == st
    ensures r.outcome == AlreadyEnrolled ==> r.store == st
    ensures r.outcome == Done ==>
      var before := st.enrollments.rows;
      var after := r.store.enrollments.rows;
      && |after| == |before| + 1
      && after[..|before|] == before
      && after[|before|] == Row(st.enrollments.next, Enrollment(userId, courseId))
  {
    if IsEnrolled(st, userId, courseId) then
      Step(st, AlreadyEnrolled)
    else
      var enrollments := Insert(st.enrollments, Enrollment(userId, courseId));
      assert enrollments.rows[|st.enrollments.rows|] in enrollments.rows;
      Step(st.(enrollments := enrollments), Done)
  }

  lemma EnrollPreservesValid(st: Store, userId: nat, courseId: nat)
    requires Valid(st)
    ensures Valid(Enroll(st, userId, courseId).store)
  {
    var r := Enroll(st, userId, courseId);
    if r.outcome == Done {
      var added := Row(st.enrollments.next, Enrollment(userId, courseId));
      assert forall x :: x in r.store.enrollments.rows ==> x in st.enrollments.rows || x == added;
      assert forall x :: x in st.enrollments.rows ==> x.val != added.val && x.id != added.id;
    }
  }

  /** Enrolling again changes nothing and reports "already enrolled". */
  lemma EnrollIdempotent(st: Store, userId: nat, courseId: nat)
    ensures var once := Enroll(st, userId, courseId).store;
      Enroll(once, userId, courseId) == Step(once, AlreadyEnrolled)
  {
  }

  /** However often a pair is enrolled, the table holds exactly one row for it. */
  lemma EnrolledPairHasOneRow(st: Store, userId: nat, courseId: nat)
    requires Valid(st) && IsEnrolled(st, userId, courseId)
    ensures |Where(st.enrollments.rows, PairIs(userId, courseId))| == 1
  {
    AtMostOneMatch(st.enrollments.rows, PairIs(userId, courseId));
    var e :| e in st.enrollments.rows && e.val == Enrollment(userId, courseId);
    WhereNonEmpty(st.enrollments.rows, PairIs(userId, courseId), e);
  }

  /** `drop_course`: deletes the caller's row for the course, if there is one. */
  function Drop(st: Store, userId: nat, courseId: nat): (r: Step)
    ensures r.outcome == Done
    ensures r.store.(enrollments := st.enrollments) == st
    ensures r.store.enrollments.next == st.enrollments.next
    ensures forall e :: e in r.store.enrollments.rows <==>
      e in st.enrollments.rows && e.val != Enrollment(userId, courseId)
    ensures !IsEnrolled(r.store, userId, courseId)
  {
    Step(st.(enrollments := DeleteWhere(st.enrollments, PairIs(userId, courseId))), Done)
  }

  lemma DropPreservesValid(st: Store, userId: nat, courseId: nat)
    requires Valid(st)
    ensures Valid(Drop(st, userId, courseId).store)
  {
  }

  /** Dropping a course one is not enrolled in is a no-op that still reports success. */
  lemma DropAbsentIsNoop(st: Store, userId: nat, courseId: nat)
    requires !IsEnrolled(st, userId, courseId)
    ensures Drop(st, userId, courseId) == Step(st, Done)
  {
    WhereKeepsAll(st.enrollments.rows, Not(PairIs(userId, courseId)));
  }

  /** Dropping removes one row when the caller was enrolled and none otherwise. */
  lemma DropRemovesOneRow(st: Store, userId: nat, courseId: nat)
    requires Valid(st)
    ensures |Drop(st, userId, courseId).store.enrollments.rows|
            == |st.enrollments.rows| - (if IsEnrolled(st, userId, courseId) then 1 else 0)
  {
    WhereSplits(st.enrollments.rows, PairIs(userId, courseId));
    if IsEnrolled(st, userId, courseId) {
      EnrolledPairHasOneRow(st, userId, courseId);
    } else {
      DropAbsentIsNoop(st, userId, courseId);
    }
  }

  /**
   Drop undoes a fresh enrollment: the rows are back as they were; only the
   rowid counter remembers the insert.
   */
  lemma DropUndoesEnroll(st: Store, userId: nat, courseId: nat)
    requires !IsEnrolled(st, userId, courseId)
    ensures var enrolled := Enroll(st, userId, courseId).store;
      Drop(enrolled, userId, courseId).store
        == st.(enrollments := Table(st.enrollments.rows, st.enrollments.next + 1))
  {
    var rows := st.enrollments.rows;
    var added := Row(st.enrollments.next, Enrollment(userId, courseId));
    var keep := Not(PairIs(userId, courseId));
    var enrolled := Enroll(st, userId, courseId).store;
    assert enrolled.enrollments == Table(rows + [added], st.enrollments.next + 1);
    WhereAppend(rows, [added], keep);
    WhereKeepsAll(rows, keep);
    assert [added][1..] == [] && !keep(added.val);
    assert Where([added], keep) == [];
    assert Where(rows + [added], keep) == rows;
  }
}

=== FILE: handlers.dfy ===
/**
 The state-changing requests, routed the way the application routes them:
 every handler but `register` first checks that the cookie session holds a
 user id and otherwise redirects to the login page without touching the
 store. The caller's id is passed in explicitly (`None` when signed out).
 */
module Handlers {
  import opened Tables
  import opened Schema
  import opened Accounts
  import opened Enrollments
  import opened StudySessions

  datatype Request =
    | RegisterForm(username: string, email: string, password: string, passwordHash: string)
    | EnrollCourse(courseId: nat)
    | DropCourse(courseId: nat)
    | CreateSessionForm(form: SessionForm)
    | JoinSession(sessionId: nat)
    | LeaveSession(sessionId: nat)

  /**
   The id a request takes from its URL (`<int:course_id>`,
   `<int:session_id>`): an unbounded natural, as the URL converter accepts.
   */
  function UrlId(req: Request): Option<nat> {
    match req
    case EnrollCourse(courseId) => Some(courseId)
    case DropCourse(courseId) => Some(courseId)
    case JoinSession(sessionId) => Some(sessionId)
    case LeaveSession(sessionId) => Some(sessionId)
    case _ => None
  }

  /** Every handler modelled here except registration requires a signed-in caller. */
  predicate NeedsLogin(req: Request) {
    !req.RegisterForm?
  }

  /**
   One request. Beyond each handler's own contract: the catalog is never
   written, users and sessions are only ever appended, and a new session
   starts "open".
   */
  function Handle(st: Store, caller: Option<nat>, req: Request): (r: Step)
    ensures NeedsLogin(req) && caller.None? ==> r == Step(st, NotAuthenticated)
    ensures caller.Some? && UrlId(req).Some? && UrlId(req).value > MaxInteger ==> r == Step(st, IdTooLarge)
    ensures Valid(st) ==> Valid(r.store)
    ensures r.store.courses == st.courses
    ensures st.users.rows <= r.store.users.rows
    ensures st.sessions.rows <= r.store.sessions.rows
    ensures forall s :: s in r.store.sessions.rows && s !in st.sessions.rows ==> s.val.status == Open
  {
    match req
    case RegisterForm(username, email, password, passwordHash) =>
      var r := Register(st, username, email, password, passwordHash);
      assert Valid(st) ==> Valid(r.store) by {
        if Valid(st) { RegisterPreservesValid(st, username, email, password, passwordHash); }
      }
      r
    case _ =>
      if caller.None? then Step(st, NotAuthenticated) else HandleSignedIn(st, caller.value, req)
  }

  /**
   A request from the signed-in user `userId`. A URL id above `MaxInteger`
   makes the statement's parameter binding raise; the handler does not
   catch that, so the request fails before the store is touched.
   */
  function HandleSignedIn(st: Store, userId: nat, req: Request): (r: Step)
    requires NeedsLogin(req)
    ensures r.outcome == IdTooLarge <==> UrlId(req).Some? && UrlId(req).value > MaxInteger
    ensures r.outcome == IdTooLarge ==> r.store == st
    ensures Valid(st) ==> Valid(r.store)
    ensures r.store.courses == st.courses && r.store.users == st.users
    ensures st.sessions.rows <= r.store.sessions.rows
    ensures forall s :: s in r.store.sessions.rows && s !in st.sessions.rows ==> s.val.status == Open
  {
    if UrlId(req).Some? && UrlId(req).value > MaxInteger then Step(st, IdTooLarge)
    else
      match req
      case EnrollCourse(courseId) =>
        var r := Enroll(st, userId, courseId);
        assert Valid(st) ==> Valid(r.store) by {
          if Valid(st) { EnrollPreservesValid(st, userId, courseId); }
        }
        r
      case DropCourse(courseId) =>
        Drop(st, userId, courseId)
      case CreateSessionForm(form) =>
        var r := CreateSession(st, userId, form);
        assert r.store.sessions.rows == st.sessions.rows + [r.store.sessions.rows[|st.sessions.rows|]];
        r
      case JoinSession(sessionId) =>
        var r := Join(st, userId, sessionId);
        assert Valid(st) ==> Valid(r.store) by {
          if Valid(st) { JoinPreservesValid(st, userId, sessionId); }
        }
        r
      case LeaveSession(sessionId) =>
        Leave(st, userId, sessionId)
  }

  /**
   The boundary of the URL ids: 2^63 - 1 still reaches the handler's
   statement, 2^63 fails before the store is touched.
   */
  lemma UrlIdBoundary(st: Store, userId: nat)
    ensures HandleSignedIn(st, userId, EnrollCourse(0x7FFF_FFFF_FFFF_FFFF)) == Enroll(st, userId, 0x7FFF_FFFF_FFFF_FFFF)
    ensures HandleSignedIn(st, userId, EnrollCourse(0x8000_0000_0000_0000)) == Step(st, IdTooLarge)
    ensures HandleSignedIn(st, userId, JoinSession(0x8000_0000_0000_0000)) == Step(st, IdTooLarge)
  {
  }

  /**
   A sequence of requests, each from its own caller, applied in order. The
   schema's constraints hold throughout, the catalog stays as seeded, no user
   or session is ever removed or rewritten, and a session's status never
   leaves "open".
   */
  function Run(st: Store, requests: seq<(Option<nat>, Request)>): (r: Store)
    ensures Valid(st) ==> Valid(r)
    ensures r.courses == st.courses
    ensures st.users.rows <= r.users.rows
    ensures st.sessions.rows <= r.sessions.rows
    ensures (forall s :: s in st.sessions.rows ==> s.val.status == Open) ==>
            forall s :: s in r.sessions.rows ==> s.val.status == Open
    decreases |requests|
  {
    if |requests| == 0 then st
    else
      var next := Handle(st, requests[0].0, requests[0].1).store;
      Run(next, requests[1..])
  }

  /** Signed-out callers change nothing, however many requests they send. */
  lemma {:induction false} SignedOutRunChangesNothing(st: Store, requests: seq<(Option<nat>, Request)>)
    requires forall i :: 0 <= i < |requests| ==> requests[i].0.None? && NeedsLogin(requests[i].1)
    ensures Run(st, requests) == st
  {
    if |requests| > 0 {
      SignedOutRunChangesNothing(st, requests[1..]);
    }
  }
}

=== FILE: ordering.dfy ===
/**
 Orderings used by `ORDER BY`: SQLite's default BINARY collation on text
 (byte-wise comparison of UTF-8, which orders strings by code point, a
 proper prefix first), and an insertion sort under any total preorder.
 */
module Ordering {

  /** `a <= b` under the BINARY collation. */
  predicate TextLe(a: string, b: string)
    ensures a <= b ==> TextLe(a, b)
    ensures b < a ==> !TextLe(a, b)
  {
    if |a| == 0 then true
    else if |b| == 0 then false
    else if a[0] != b[0] then a[0] < b[0]
    else TextLe(a[1..], b[1..])
  }

  lemma {:induction false} TextLeTotal(a: string, b: string)
    ensures TextLe(a, b) || TextLe(b, a)
  {
    if |a| > 0 && |b| > 0 && a[0] == b[0] {
      TextLeTotal(a[1..], b[1..]);
    }
  }

  lemma {:induction false} TextLeTransitive(a: string, b: string, c: string)
    requires TextLe(a, b) && TextLe(b, c)
    ensures TextLe(a, c)
  {
    if |a| > 0 && |b| > 0 && |c| > 0 && a[0] == b[0] && b[0] == c[0] {
      TextLeTransitive(a[1..], b[1..], c[1..]);
    }
  }

  lemma {:induction false} TextLeAntisymmetric(a: string, b: string)
    requires TextLe(a, b) && TextLe(b, a)
    ensures a == b
  {
    if |a| > 0 && |b| > 0 {
      TextLeAntisymmetric(a[1..], b[1..]);
      assert a == [a[0]] + a[1..] && b == [b[0]] + b[1..];
    }
  }

  ghost predicate TotalPreorder<T(!new)>(le: (T, T) -> bool) {
    && (forall a, b :: le(a, b) || le(b, a))
    && (forall a, b, c :: le(a, b) && le(b, c) ==> le(a, c))
  }

  ghost predicate SortedBy<T>(s: seq<T>, le: (T, T) -> bool) {
    forall i, j :: 0 <= i < j < |s| ==> le(s[i], s[j])
  }

  /** Puts `x` before the first element it is ordered before. */
  function InsertBy<T(!new)>(x: T, s: seq<T>, le: (T, T) -> bool): (r: seq<T>)
    requires TotalPreorder(le) && SortedBy(s, le)
    ensures SortedBy(r, le)
    ensures multiset(r) == multiset(s) + multiset{x}
  {
    if |s| == 0 then [x]
    else if le(x, s[0]) then
      HeadBoundsAll(s, le);
      assert forall y :: y in s ==> le(x, y);
      ConsSorted(x, s, le);
      [x] + s
    else
      var rest := InsertBy(x, s[1..], le);
      assert s == [s[0]] + s[1..];
      HeadBoundsAll(s, le);
      assert forall y :: y in rest ==> le(s[0], y) by {
        forall y | y in rest ensures le(s[0], y) {
          assert y in multiset(rest);
          if y != x {
            assert y in multiset(s[1..]);
          }
        }
      }
      ConsSorted(s[0], rest, le);
      [s[0]] + rest
  }

  /** The head of a sorted sequence is below every element. */
  lemma HeadBoundsAll<T(!new)>(s: seq<T>, le: (T, T) -> bool)
    requires TotalPreorder(le) && SortedBy(s, le) && |s| > 0
    ensures forall y :: y in s ==> le(s[0], y)
    ensures forall y :: y in s[1..] ==> le(s[0], y)
    ensures SortedBy(s[1..], le)
  {
    assert le(s[0], s[0]);
    forall y | y in s[1..] ensures le(s[0], y) {
      var k :| 0 <= k < |s[1..]| && s[1..][k] == y;
      assert s[k + 1] == y;
    }
    forall i, j | 0 <= i < j < |s[1..]| ensures le(s[1..][i], s[1..][j]) {
      assert s[1..][i] == s[i + 1] && s[1..][j] == s[j + 1];
    }
  }

  /** Prefixing a lower bound keeps a sequence sorted. */
  lemma ConsSorted<T(!new)>(h: T, t: seq<T>, le: (T, T) -> bool)
    requires TotalPreorder(le) && SortedBy(t, le)
    requires forall y :: y in t ==> le(h, y)
    ensures SortedBy([h] + t, le)
  {
    var r := [h] + t;
    forall i, j | 0 <= i < j < |r| ensures le(r[i], r[j]) {
      assert r[j] == t[j - 1];
      if i > 0 {
        assert r[i] == t[i - 1];
      } else {
        assert t[j - 1] in t;
      }
    }
  }

  /** Insertion sort: an ordered permutation of `s`. */
  function SortBy<T(!new)>(s: seq<T>, le: (T, T) -> bool): (r: seq<T>)
    requires TotalPreorder(le)
    ensures SortedBy(r, le)
    ensures multiset(r) == multiset(s)
    ensures |r| == |s|
  {
    if |s| == 0 then []
    else
      assert s == [s[0]] + s[1..];
      InsertBy(s[0], SortBy(s[1..], le), le)
  }

  /** Sorting keeps exactly the elements it was given. */
  lemma SortByMembers<T(!new)>(s: seq<T>, le: (T, T) -> bool, x: T)
    requires TotalPreorder(le)
    ensures x in SortBy(s, le) <==> x in s
  {
    assert x in SortBy(s, le) <==> x in multiset(SortBy(s, le));
    assert x in s <==> x in multiset(s);
  }
}

=== FILE: queries.dfy ===
/**
 The read-only pages: `sessions` (upcoming sessions with the caller's own
 status), `dashboard` (enrolled courses and the next five sessions) and
 `courses` (the catalog with enrollment flags). `today` stands for SQLite's
 `date('now')` and is passed in.
 */
module Queries {
  import opened Tables
  import opened Schema
  import opened Ordering

  /** `ORDER BY s.session_date, s.session_time`. */
  predicate SessionLe(a: Row<StudySession>, b: Row<StudySession>) {
    a.val.date < b.val.date || (a.val.date == b.val.date && a.val.time <= b.val.time)
  }

  lemma SessionLeIsTotalPreorder()
    ensures TotalPreorder(SessionLe)
  {
  }

  /** `ORDER BY department, course_code`, both under the BINARY collation. */
  predicate CourseLe(a: Row<Course>, b: Row<Course>) {
    if a.val.department != b.val.department then TextLe(a.val.department, b.val.department)
    else TextLe(a.val.code, b.val.code)
  }

  lemma CourseLeIsTotalPreorder()
    ensures TotalPreorder(CourseLe)
  {
    forall a, b
      ensures CourseLe(a, b) || CourseLe(b, a)
    {
      TextLeTotal(a.val.department, b.val.department);
      TextLeTotal(a.val.code, b.val.code);
    }
    forall a, b, c | CourseLe(a, b) && CourseLe(b, c)
      ensures CourseLe(a, c)
    {
      var da, db, dc := a.val.department, b.val.department, c.val.department;
      if da != db && db != dc {
        TextLeTransitive(da, db, dc);
        if da == dc {
          TextLeAntisymmetric(da, db);
        }
      } else if da == db && db == dc {
        TextLeTransitive(a.val.code, b.val.code, c.val.code);
      }
    }
  }

  /**
   The `WHERE` and inner joins of the upcoming-sessions query: the session's
   course is one the caller is enrolled in, its date is today or later, and
   the joined course and creator rows exist.
   */
  predicate Qualifies(st: Store, userId: nat, today: nat, s: StudySession) {
    && today <= s.date
    && IsEnrolled(st, userId, s.courseId)
    && Lookup(st.courses.rows, s.courseId).Some?
    && Lookup(st.users.rows, s.creatorId).Some?
  }

  function QualifiesFor(st: Store, userId: nat, today: nat): StudySession -> bool {
    s => Qualifies(st, userId, today, s)
  }

  /**
   The sessions the upcoming query returns, in order: exactly the qualifying
   rows, each once, sorted by (date, time). SQL leaves the order of ties open;
   the model fixes one.
   */
  function UpcomingSessions(st: Store, userId: nat, today: nat): (r: seq<Row<StudySession>>)
    ensures SortedBy(r, SessionLe)
    ensures forall s :: s in r <==> s in st.sessions.rows && Qualifies(st, userId, today, s.val)
    ensures WellFormed(st.sessions) ==> forall i, j :: 0 <= i < j < |r| ==> r[i].id != r[j].id
  {
    SessionLeIsTotalPreorder();
    var chosen := Where(st.sessions.rows, QualifiesFor(st, userId, today));
    var r := SortBy(chosen, SessionLe);
    assert forall s :: s in r <==> s in chosen by {
      forall s ensures s in r <==> s in chosen {
        SortByMembers(chosen, SessionLe, s);
      }
    }
    assert WellFormed(st.sessions) ==> forall i, j :: 0 <= i < j < |r| ==> r[i].id != r[j].id by {
      if WellFormed(st.sessions) {
        PermutedRowsKeepIds(chosen, r);
      }
    }
    r
  }

  /** One line of the upcoming-sessions listing (the `s.*` columns plus the joined ones). */
  datatype UpcomingRow = UpcomingRow(
    session: Row<StudySession>,
    courseCode: string,
    courseName: string,
    creatorName: string,
    participantCount: nat)

  /** The confirmed participants of a session, as `LEFT JOIN ... AND sp.status = 'confirmed'` joins them. */
  function ConfirmedOf(st: Store, sessionId: nat): seq<Row<Participation>> {
    Where(st.participants.rows, (p: Participation) => p.sessionId == sessionId && p.status == Confirmed)
  }

  /** Number of confirmed participants of a session. */
  function ConfirmedCount(st: Store, sessionId: nat): (n: nat)
    ensures forall p :: p in ConfirmedOf(st, sessionId) <==>
      p in st.participants.rows && p.val.sessionId == sessionId && p.val.status == Confirmed
    ensures n <= |st.participants.rows|
    ensures n == 0 <==> forall p :: p in st.participants.rows ==>
      !(p.val.sessionId == sessionId && p.val.status == Confirmed)
  {
    var confirmed := ConfirmedOf(st, sessionId);
    assert |confirmed| > 0 ==> confirmed[0] in confirmed;
    |confirmed|
  }

  /** The caller's own participation rows for a session (the second `LEFT JOIN`). */
  function CallerRows(st: Store, sessionId: nat, userId: nat): (r: seq<Row<Participation>>)
    ensures forall p :: p in r <==> p in st.participants.rows && p.val.sessionId == sessionId && p.val.userId == userId
  {
    Where(st.participants.rows, ParticipationOf(sessionId, userId))
  }

  /** The course and the creator the inner joins attach to a qualifying session. */
  function Describe(st: Store, s: Row<StudySession>, count: nat): (r: UpcomingRow)
    requires Lookup(st.courses.rows, s.val.courseId).Some?
    requires Lookup(st.users.rows, s.val.creatorId).Some?
    ensures r.session == s && r.participantCount == count
    ensures exists c :: c in st.courses.rows && c.id == s.val.courseId
                        && r.courseCode == c.val.code && r.courseName == c.val.name
    ensures exists u :: u in st.users.rows && u.id == s.val.creatorId && r.creatorName == u.val.username
  {
    var c := Lookup(st.courses.rows, s.val.courseId).value;
    var u := Lookup(st.users.rows, s.val.creatorId).value;
    UpcomingRow(s, c.val.code, c.val.name, u.val.username, count)
  }

  /** Dashboard rows: `COUNT(sp.id)` with the one confirmed-participants join. */
  function DashboardRows(st: Store, sessions: seq<Row<StudySession>>): (r: seq<UpcomingRow>)
    requires forall s :: s in sessions ==>
      Lookup(st.courses.rows, s.val.courseId).Some? && Lookup(st.users.rows, s.val.creatorId).Some?
    ensures |r| == |sessions|
    ensures forall i :: 0 <= i < |r| ==>
      r[i].session == sessions[i] && r[i].participantCount == ConfirmedCount(st, sessions[i].id)
  {
    seq(|sessions|, i requires 0 <= i < |sessions| =>
      Describe(st, sessions[i], ConfirmedCount(st, sessions[i].id)))
  }

  /** At most this many upcoming sessions are shown on the dashboard (`LIMIT 5`). */
  const DashboardLimit: nat := 5

  datatype DashboardView = DashboardView(courses: seq<Row<Course>>, upcoming: seq<UpcomingRow>)

  /**
   The courses the caller is enrolled in, as
   `courses JOIN user_courses ON c.id = uc.course_id WHERE uc.user_id = ?`
   produces them, one per matching enrollment row.
   */
  function CoursesOf(courses: seq<Row<Course>>, enrollments: seq<Row<Enrollment>>, userId: nat): (r: seq<Row<Course>>)
    ensures forall c :: c in r ==>
      c in courses && exists e :: e in enrollments && e.val == Enrollment(userId, c.id)
    ensures Increasing(courses) ==> forall c :: c in courses && (exists e :: e in enrollments && e.val == Enrollment(userId, c.id)) ==> c in r
  {
    if |enrollments| == 0 then []
    else
      var e := enrollments[0];
      var rest := CoursesOf(courses, enrollments[1..], userId);
      var head := if e.val.userId == userId && Lookup(courses, e.val.courseId).Some?
                  then [Lookup(courses, e.val.courseId).value] else [];
      assert forall x :: x in enrollments[1..] ==> x in enrollments;
      assert Increasing(courses) ==>
        forall c :: c in courses && (exists x :: x in enrollments && x.val == Enrollment(userId, c.id)) ==> c in head + rest
      by {
        if Increasing(courses) {
          forall c | c in courses && (exists x :: x in enrollments && x.val == Enrollment(userId, c.id))
            ensures c in head + rest
          {
            var x :| x in enrollments && x.val == Enrollment(userId, c.id);
            if x == e {
              LookupFinds(courses, c);
              assert c in head;
            } else {
              assert x in enrollments[1..];
            }
          }
        }
      }
      head + rest
  }

  function EnrolledCourses(st: Store, userId: nat): (r: seq<Row<Course>>)
    ensures WellFormed(st.courses) ==> forall c :: c in r <==> c in st.courses.rows && IsEnrolled(st, userId, c.id)
  {
    CoursesOf(st.courses.rows, st.enrollments.rows, userId)
  }

  /** `dashboard`: the enrolled courses, and the first five upcoming sessions. */
  function Dashboard(st: Store, userId: nat, today: nat): (r: DashboardView)
    ensures r.courses == EnrolledCourses(st, userId)
    ensures var all := UpcomingSessions(st, userId, today);
      && |r.upcoming| == (if |all| < DashboardLimit then |all| else DashboardLimit)
      && forall i :: 0 <= i < |r.upcoming| ==>
           r.upcoming[i].session == all[i] && r.upcoming[i].participantCount == ConfirmedCount(st, all[i].id)
  {
    var all := UpcomingSessions(st, userId, today);
    var n := if |all| < DashboardLimit then |all| else DashboardLimit;
    DashboardView(EnrolledCourses(st, userId), DashboardRows(st, all[..n]))
  }

  /**
   The dashboard shows qualifying sessions only, in (date, time) order, and
   they are the earliest ones: every qualifying session left out by the
   limit is no earlier than every session shown.
   */
  lemma DashboardShowsEarliest(st: Store, userId: nat, today: nat)
    ensures var d := Dashboard(st, userId, today).upcoming;
      && |d| <= DashboardLimit
      && (forall i :: 0 <= i < |d| ==>
            d[i].session in st.sessions.rows && Qualifies(st, userId, today, d[i].session.val))
      && (forall i, j :: 0 <= i < j < |d| ==> SessionLe(d[i].session, d[j].session))
      && (forall s :: s in st.sessions.rows && Qualifies(st, userId, today, s.val)
                      && (forall i :: 0 <= i < |d| ==> d[i].session != s)
                      ==> forall i :: 0 <= i < |d| ==> SessionLe(d[i].session, s))
  {
    var d := Dashboard(st, userId, today).upcoming;
    var all := UpcomingSessions(st, userId, today);
    ShownPrefix(all, d);
    forall i | 0 <= i < |d|
      ensures d[i].session in st.sessions.rows && Qualifies(st, userId, today, d[i].session.val)
    {
      assert d[i].session in all;
    }
    forall s | s in st.sessions.rows && Qualifies(st, userId, today, s.val)
      ensures s in all
    {
    }
  }

  /**
   Lines that carry the first sessions of a sorted sequence are sorted, and
   every session of the sequence they leave out sorts no earlier than any of
   them.
   */
  lemma ShownPrefix(all: seq<Row<StudySession>>, d: seq<UpcomingRow>)
    requires SortedBy(all, SessionLe) && |d| <= |all|
    requires forall i :: 0 <= i < |d| ==> d[i].session == all[i]
    ensures forall i :: 0 <= i < |d| ==> d[i].session in all
    ensures forall i, j :: 0 <= i < j < |d| ==> SessionLe(d[i].session, d[j].session)
    ensures forall s :: s in all && (forall i :: 0 <= i < |d| ==> d[i].session != s)
                        ==> forall i :: 0 <= i < |d| ==> SessionLe(d[i].session, s)
  {
    forall i | 0 <= i < |d|
      ensures d[i].session in all
    {
      assert all[i] in all;
    }
    forall s, i | s in all && (forall i :: 0 <= i < |d| ==> d[i].session != s) && 0 <= i < |d|
      ensures SessionLe(d[i].session, s)
    {
      var k :| 0 <= k < |all| && all[k] == s;
      assert i < k;
    }
  }

  /** One line of the sessions page. */
  datatype SessionListing = SessionListing(row: UpcomingRow, isCreator: bool, userStatus: string)

  /**
   `COUNT(sp.id)` on the sessions page: the two `LEFT JOIN`s multiply the
   confirmed rows by the caller's rows (one null row when there is none).
   */
  function ListedCount(st: Store, sessionId: nat, userId: nat): (n: nat)
    ensures ConfirmedCount(st, sessionId) <= n
    ensures n == 0 <==> ConfirmedCount(st, sessionId) == 0
    ensures |CallerRows(st, sessionId, userId)| <= 1 ==> n == ConfirmedCount(st, sessionId)
  {
    var mine := |CallerRows(st, sessionId, userId)|;
    Times(ConfirmedCount(st, sessionId), if mine == 0 then 1 else mine)
  }

  /**
   The size of the product of two joined row sets: `a` confirmed rows, each
   repeated once per row of the caller's `b`.
   */
  function Times(a: nat, b: nat): (r: nat)
    ensures b >= 1 ==> a <= r
    ensures b == 1 ==> r == a
    ensures r == 0 <==> a == 0 || b == 0
  {
    a * b
  }

  /** `sp_user.status`, or 'not_joined' when the caller has no row. */
  function UserStatus(st: Store, sessionId: nat, userId: nat): (status: string)
    ensures CallerRows(st, sessionId, userId) == [] ==> status == NotJoined
    ensures CallerRows(st, sessionId, userId) != [] ==>
      exists p :: p in CallerRows(st, sessionId, userId) && status == p.val.status
  {
    var mine := CallerRows(st, sessionId, userId);
    if |mine| == 0 then NotJoined
    else
      assert mine[0] in mine;
      mine[0].val.status
  }

  /**
   `sessions`: one line per upcoming session of the caller's courses, in the
   query's order, annotated for the caller.
   */
  function ListSessions(st: Store, userId: nat, today: nat): (r: seq<SessionListing>)
    ensures var all := UpcomingSessions(st, userId, today);
      && |r| == |all|
      && forall i :: 0 <= i < |r| ==>
           && r[i].row.session == all[i]
           && (r[i].isCreator <==> all[i].val.creatorId == userId)
           && r[i].row.participantCount == ListedCount(st, all[i].id, userId)
           && r[i].userStatus == UserStatus(st, all[i].id, userId)
  {
    var all := UpcomingSessions(st, userId, today);
    seq(|all|, i requires 0 <= i < |all| => Annotate(st, userId, all[i]))
  }

  /**
   The sessions page never lists a past session or one of a course the
   caller is not enrolled in, lists every qualifying session exactly once,
   and is ordered by (date, time).
   */
  lemma SessionsPageListsExactlyUpcoming(st: Store, userId: nat, today: nat)
    requires WellFormed(st.sessions)
    ensures var r := ListSessions(st, userId, today);
      && (forall i :: 0 <= i < |r| ==>
            var s := r[i].row.session;
            s in st.sessions.rows && today <= s.val.date && IsEnrolled(st, userId, s.val.courseId))
      && (forall s :: s in st.sessions.rows && Qualifies(st, userId, today, s.val) ==>
            exists i :: 0 <= i < |r| && r[i].row.session == s)
      && (forall i, j :: 0 <= i < j < |r| ==>
            SessionLe(r[i].row.session, r[j].row.session) && r[i].row.session.id != r[j].row.session.id)
  {
    var r := ListSessions(st, userId, today);
    var all := UpcomingSessions(st, userId, today);
    forall s | s in st.sessions.rows && Qualifies(st, userId, today, s.val)
      ensures exists i :: 0 <= i < |r| && r[i].row.session == s
    {
      var k := IndexOf(all, s);
      assert r[k].row.session == s;
    }
    forall i | 0 <= i < |r|
      ensures var s := r[i].row.session;
        s in st.sessions.rows && today <= s.val.date && IsEnrolled(st, userId, s.val.courseId)
    {
      assert r[i].row.session == all[i] && all[i] in all;
    }
  }

  /**
   The sessions-page line for one qualifying session. In a valid store its
   count is the number of confirmed participants, and its status is the
   caller's own participation status, or 'not_joined' without one.
   */
  function Annotate(st: Store, userId: nat, s: Row<StudySession>): (l: SessionListing)
    requires Lookup(st.courses.rows, s.val.courseId).Some?
    requires Lookup(st.users.rows, s.val.creatorId).Some?
    ensures l.row.session == s && (l.isCreator <==> s.val.creatorId == userId)
    ensures l.row.participantCount == ListedCount(st, s.id, userId)
    ensures l.userStatus == UserStatus(st, s.id, userId)
    ensures Valid(st) ==> l.row.participantCount == ConfirmedCount(st, s.id)
    ensures !HasJoined(st, s.id, userId) ==> l.userStatus == NotJoined
    ensures Valid(st) ==> forall p :: p in st.participants.rows && p.val.sessionId == s.id && p.val.userId == userId
                                      ==> l.userStatus == p.val.status
  {
    var mine := CallerRows(st, s.id, userId);
    assert |mine| > 0 ==> mine[0] in mine;
    assert Valid(st) ==>
      && ListedCount(st, s.id, userId) == ConfirmedCount(st, s.id)
      && forall p :: p in st.participants.rows && p.val.sessionId == s.id && p.val.userId == userId
                     ==> UserStatus(st, s.id, userId) == p.val.status
    by {
      if Valid(st) {
        ListedCountIsConfirmedCount(st, s.id, userId);
        UserStatusIsOwnRow(st, s.id, userId);
      }
    }
    SessionListing(Describe(st, s, ListedCount(st, s.id, userId)), s.val.creatorId == userId,
                   UserStatus(st, s.id, userId))
  }

  function IndexOf<T(==)>(s: seq<T>, x: T): (i: nat)
    requires x in s
    ensures i < |s| && s[i] == x
  {
    if s[0] == x then 0 else 1 + IndexOf(s[1..], x)
  }

  /**
   Because `UNIQUE(session_id, user_id)` leaves the caller at most one row
   per session, the sessions page counts exactly the confirmed participants.
   */
  lemma ListedCountIsConfirmedCount(st: Store, sessionId: nat, userId: nat)
    requires Valid(st)
    ensures ListedCount(st, sessionId, userId) == ConfirmedCount(st, sessionId)
  {
    AtMostOneMatch(st.participants.rows, ParticipationOf(sessionId, userId));
    var mine := |CallerRows(st, sessionId, userId)|;
    assert (if mine == 0 then 1 else mine) == 1;
  }

  /**
   The caller's status on the sessions page: 'not_joined' without a
   participation row, otherwise the status of the caller's one row.
   */
  lemma UserStatusIsOwnRow(st: Store, sessionId: nat, userId: nat)
    requires Valid(st)
    ensures !HasJoined(st, sessionId, userId) ==> UserStatus(st, sessionId, userId) == NotJoined
    ensures forall p :: p in st.participants.rows && p.val.sessionId == sessionId && p.val.userId == userId
                        ==> UserStatus(st, sessionId, userId) == p.val.status
  {
    var mine := CallerRows(st, sessionId, userId);
    AtMostOneMatch(st.participants.rows, ParticipationOf(sessionId, userId));
    if |mine| > 0 {
      assert mine[0] in mine;
    }
  }

  /**
   With the schema's constraints in force, the dashboard shows the first
   five lines of the sessions page, without the per-caller columns. This
   rests on both pages breaking (date, time) ties the same way, which the
   model fixes and SQL does not promise.
   */
  lemma DashboardIsPrefixOfSessions(st: Store, userId: nat, today: nat)
    requires Valid(st)
    ensures var d := Dashboard(st, userId, today).upcoming;
      var l := ListSessions(st, userId, today);
      && |d| <= |l| && |d| <= DashboardLimit
      && forall i :: 0 <= i < |d| ==> d[i] == l[i].row
  {
    var d := Dashboard(st, userId, today).upcoming;
    var l := ListSessions(st, userId, today);
    forall i | 0 <= i < |d|
      ensures d[i] == l[i].row
    {
      DashboardLineIsSessionsLine(st, userId, today, i);
    }
  }

  lemma DashboardLineIsSessionsLine(st: Store, userId: nat, today: nat, i: nat)
    requires Valid(st)
    requires i < |Dashboard(st, userId, today).upcoming|
    ensures i < |ListSessions(st, userId, today)|
    ensures Dashboard(st, userId, today).upcoming[i] == ListSessions(st, userId, today)[i].row
  {
    var all := UpcomingSessions(st, userId, today);
    var n := if |all| < DashboardLimit then |all| else DashboardLimit;
    var shown := all[..n];
    assert all[i] in all;
    ListedCountIsConfirmedCount(st, all[i].id, userId);
    assert DashboardRows(st, shown)[i] == Describe(st, all[i], ConfirmedCount(st, all[i].id));
    assert Annotate(st, userId, all[i]).row == Describe(st, all[i], ListedCount(st, all[i].id, userId));
  }

  /** The course ids the caller is enrolled in, in `user_courses` order. */
  function EnrolledIds(enrollments: seq<Row<Enrollment>>, userId: nat): (r: seq<nat>)
    ensures forall c :: c in r <==> exists e :: e in enrollments && e.val == Enrollment(userId, c)
  {
    if |enrollments| == 0 then []
    else
      var e := enrollments[0];
      var rest := EnrolledIds(enrollments[1..], userId);
      assert forall x :: x in enrollments[1..] ==> x in enrollments;
      assert forall c :: (exists x :: x in enrollments && x.val == Enrollment(userId, c))
                         ==> (e.val == Enrollment(userId, c) || exists x :: x in enrollments[1..] && x.val == Enrollment(userId, c))
      by {
        forall c | exists x :: x in enrollments && x.val == Enrollment(userId, c)
          ensures e.val == Enrollment(userId, c) || exists x :: x in enrollments[1..] && x.val == Enrollment(userId, c)
        {
          var x :| x in enrollments && x.val == Enrollment(userId, c);
          if x != e {
            assert x in enrollments[1..];
          }
        }
      }
      if e.val.userId == userId then [e.val.courseId] + rest else rest
  }

  /** With `UNIQUE(user_id, course_id)` in force, no course id is listed twice. */
  lemma {:induction false} EnrolledIdsDistinct(enrollments: seq<Row<Enrollment>>, userId: nat)
    requires Increasing(enrollments) && UniqueEnrollments(enrollments)
    ensures Distinct(EnrolledIds(enrollments, userId))
  {
    if |enrollments| > 0 {
      var e := enrollments[0];
      var tail := enrollments[1..];
      TailIncreasing(enrollments);
      assert forall x :: x in tail ==> x in enrollments;
      EnrolledIdsDistinct(tail, userId);
      if e.val.userId == userId {
        assert e.val.courseId !in EnrolledIds(tail, userId);
        ConsDistinct(e.val.courseId, EnrolledIds(tail, userId));
      }
    }
  }

  /** With the schema's constraints in force, the dashboard lists each enrolled course once. */
  lemma {:induction false} CoursesOfDistinct(courses: seq<Row<Course>>, enrollments: seq<Row<Enrollment>>, userId: nat)
    requires Increasing(enrollments) && UniqueEnrollments(enrollments)
    ensures Distinct(CoursesOf(courses, enrollments, userId))
  {
    if |enrollments| > 0 {
      var e := enrollments[0];
      var tail := enrollments[1..];
      TailIncreasing(enrollments);
      assert forall x :: x in tail ==> x in enrollments;
      CoursesOfDistinct(courses, tail, userId);
      var rest := CoursesOf(courses, tail, userId);
      if e.val.userId == userId && Lookup(courses, e.val.courseId).Some? {
        var c := Lookup(courses, e.val.courseId).value;
        assert c !in rest;
        ConsDistinct(c, rest);
      }
    }
  }

  lemma EnrolledCoursesDistinct(st: Store, userId: nat)
    requires Valid(st)
    ensures Distinct(EnrolledCourses(st, userId))
    ensures Distinct(CoursesPage(st, userId).enrolledIds)
  {
    CoursesOfDistinct(st.courses.rows, st.enrollments.rows, userId);
    EnrolledIdsDistinct(st.enrollments.rows, userId);
  }

  datatype CoursesView = CoursesView(catalog: seq<Row<Course>>, enrolledIds: seq<nat>)

  /** `courses`: the whole catalog ordered by (department, course_code), and the caller's course ids. */
  function CoursesPage(st: Store, userId: nat): (r: CoursesView)
    ensures SortedBy(r.catalog, CourseLe)
    ensures multiset(r.catalog) == multiset(st.courses.rows)
    ensures forall c :: c in r.enrolledIds <==> IsEnrolled(st, userId, c)
  {
    CourseLeIsTotalPreorder();
    CoursesView(SortBy(st.courses.rows, CourseLe), EnrolledIds(st.enrollments.rows, userId))
  }
}

=== FILE: scenario.dfy ===
/**
 A typical walk-through of the application, on a database seeded
 with one course: a new user registers, logs in, enrolls in the course,
 creates a session for it dated today, sees it listed with nobody joined,
 joins it, and then sees themself counted.
 */
module Scenario {
  import opened Tables
  import opened Schema
  import opened Accounts
  import opened Enrollments
  import opened StudySessions
  import opened Queries

  function Catalog(): (t: Table<Course>)
    ensures WellFormed(t)
  {
    Table([Row(1, Course("CS1010", "Introduction to Computer Science", "Computer Science"))], 2)
  }

  /** A sessions page holding a single line, for a table holding a single session. */
  lemma OneLine(st: Store, userId: nat, today: nat)
    requires |st.sessions.rows| == 1 && WellFormed(st.sessions)
    requires Qualifies(st, userId, today, st.sessions.rows[0].val)
    ensures |ListSessions(st, userId, today)| == 1
    ensures ListSessions(st, userId, today)[0].row.session == st.sessions.rows[0]
  {
    var all := UpcomingSessions(st, userId, today);
    assert st.sessions.rows[0] in all;
  }

  /** The store after "alice" registered. */
  function Registered(hash: string): Store {
    Register(Fresh(Catalog()), "alice", "a@x.com", "pw", hash).store
  }

  /** ... and enrolled in course 1. */
  function Enrolled(hash: string): Store {
    Enroll(Registered(hash), 1, 1).store
  }

  /** ... and created a session for it dated `form.date`. */
  function Created(hash: string, form: SessionForm): Store {
    CreateSession(Enrolled(hash), 1, form).store
  }

  /** ... and joined that session. */
  function Joined(hash: string, form: SessionForm): Store {
    Join(Created(hash, form), 1, 1).store
  }

  lemma RegisterThenLogin(hash: string, verify: (string, string) -> bool)
    requires verify(hash, "pw")
    ensures Register(Fresh(Catalog()), "alice", "a@x.com", "pw", hash).outcome == Done
    ensures Registered(hash).users.rows == [Row(1, User("alice", "a@x.com", hash))]
    ensures Login(Registered(hash), "alice", "pw", verify) == SignedIn(1, "alice")
  {
    var s0 := Fresh(Catalog());
    FreshIsValid(Catalog());
    assert !Taken(s0, "alice", "a@x.com");
    LoginAfterRegister(s0, "alice", "a@x.com", "pw", hash, verify);
  }

  lemma EnrollThenCourses(hash: string)
    ensures Enroll(Registered(hash), 1, 1).outcome == Done
    ensures Enrolled(hash).enrollments.rows == [Row(1, Enrollment(1, 1))]
    ensures 1 in CoursesPage(Enrolled(hash), 1).enrolledIds
  {
    assert !IsEnrolled(Registered(hash), 1, 1);
    assert IsEnrolled(Enrolled(hash), 1, 1);
  }

  /** What the sessions query needs to know about the store once the session exists. */
  lemma CreatedFacts(hash: string, form: SessionForm)
    requires form.courseId == 1
    ensures var s3 := Created(hash, form);
      && |s3.sessions.rows| == 1 && WellFormed(s3.sessions)
      && s3.sessions.rows[0].id == 1
      && s3.sessions.rows[0].val.courseId == 1
      && s3.sessions.rows[0].val.creatorId == 1
      && s3.sessions.rows[0].val.date == form.date
      && s3.participants == Table([], 1)
      && IsEnrolled(s3, 1, 1)
      && Lookup(s3.courses.rows, 1).Some?
      && Lookup(s3.users.rows, 1).Some?
  {
    assert Registered(hash).users.rows == [Row(1, User("alice", "a@x.com", hash))];
    EnrollThenCourses(hash);
    assert IsEnrolled(Created(hash, form), 1, 1);
  }

  /** The creator is listed as creator, with nobody counted and no status of their own. */
  lemma CreateThenList(hash: string, form: SessionForm, today: nat)
    requires form.courseId == 1 && form.date == today
    ensures var l := ListSessions(Created(hash, form), 1, today);
      && |l| == 1
      && l[0].row.session.id == 1
      && l[0].isCreator
      && l[0].row.participantCount == 0
      && l[0].userStatus == NotJoined
  {
    var s3 := Created(hash, form);
    CreatedFacts(hash, form);
    OneLine(s3, 1, today);
    assert ConfirmedCount(s3, 1) == 0;
    assert CallerRows(s3, 1, 1) == [];
  }

  /** What the sessions query needs to know about the store once the creator joined. */
  lemma JoinedFacts(hash: string, form: SessionForm)
    requires form.courseId == 1
    ensures Join(Created(hash, form), 1, 1).outcome == Done
    ensures var s4 := Joined(hash, form);
      && |s4.sessions.rows| == 1 && WellFormed(s4.sessions)
      && s4.sessions.rows[0].id == 1
      && s4.sessions.rows[0].val.courseId == 1
      && s4.sessions.rows[0].val.creatorId == 1
      && s4.sessions.rows[0].val.date == form.date
      && s4.participants.rows == [Row(1, Participation(1, 1, Confirmed))]
      && IsEnrolled(s4, 1, 1)
      && Lookup(s4.courses.rows, 1).Some?
      && Lookup(s4.users.rows, 1).Some?
  {
    var s3 := Created(hash, form);
    CreatedFacts(hash, form);
    assert !HasJoined(s3, 1, 1);
    assert Joined(hash, form).(participants := s3.participants) == s3;
  }

  /** A lone session whose only participant is the caller, confirmed. */
  lemma ListedWithCaller(st: Store, userId: nat, today: nat)
    requires |st.sessions.rows| == 1 && WellFormed(st.sessions)
    requires Qualifies(st, userId, today, st.sessions.rows[0].val)
    requires st.participants.rows == [Row(1, Participation(st.sessions.rows[0].id, userId, Confirmed))]
    ensures var l := ListSessions(st, userId, today);
      |l| == 1 && l[0].row.participantCount == 1 && l[0].userStatus == Confirmed
  {
    OneLine(st, userId, today);
    var mine := st.participants.rows[0];
    var id := st.sessions.rows[0].id;
    assert ConfirmedOf(st, id) == [mine];
    assert CallerRows(st, id, userId) == [mine];
  }

  /** After joining, the caller is confirmed and counted. */
  lemma JoinThenList(hash: string, form: SessionForm, today: nat)
    requires form.courseId == 1 && form.date == today
    ensures Join(Created(hash, form), 1, 1).outcome == Done
    ensures var l := ListSessions(Joined(hash, form), 1, today);
      && |l| == 1
      && l[0].row.participantCount == 1
      && l[0].userStatus == Confirmed
  {
    JoinedFacts(hash, form);
    ListedWithCaller(Joined(hash, form), 1, today);
  }

  /**
   The whole walk-through: registration and login succeed, the course page
   shows the enrollment, the new session is listed with nobody joined (its
   creator included), and after joining the caller is confirmed and counted.
   */
  lemma EndToEnd(hash: string, verify: (string, string) -> bool, form: SessionForm, today: nat)
    requires verify(hash, "pw")
    requires form.courseId == 1 && form.date == today
    ensures Login(Registered(hash), "alice", "pw", verify) == SignedIn(1, "alice")
    ensures 1 in CoursesPage(Enrolled(hash), 1).enrolledIds
    ensures var before := ListSessions(Created(hash, form), 1, today);
      |before| == 1 && before[0].row.participantCount == 0 && before[0].userStatus == NotJoined
    ensures var after := ListSessions(Joined(hash, form), 1, today);
      |after| == 1 && after[0].row.participantCount == 1 && after[0].userStatus == Confirmed
  {
    RegisterThenLogin(hash, verify);
    EnrollThenCourses(hash);
    CreateThenList(hash, form, today);
    JoinThenList(hash, form, today);
  }
}

=== FILE: schema.dfy ===
/**
 The five tables created by `init_db` and the uniqueness constraints the
 schema declares on them. A `Store` is one state of the database file;
 every request handler is a function from a store to a new store plus an
 outcome tag.

 Foreign keys are declared in the schema but SQLite does not enforce them
 unless `PRAGMA foreign_keys` is switched on, which the application never
 does; so no invariant here says that a user, course or session id points at
 an existing row.
 */
module Schema {
  import opened Tables

  /** `users`: username and email are each `UNIQUE NOT NULL`. */
  datatype User = User(username: string, email: string, passwordHash: string)

  /** `courses`: a catalog entry; no column is unique besides the rowid. */
  datatype Course = Course(code: string, name: string, department: string)

  /** `user_courses`: one user enrolled in one course. */
  datatype Enrollment = Enrollment(userId: nat, courseId: nat)

  /**
   `study_sessions`. Dates and times are modelled as naturals ordered the way
   the ISO-formatted strings the form submits compare.
   */
  datatype StudySession = StudySession(
    creatorId: nat,
    courseId: nat,
    title: string,
    description: string,
    date: nat,
    time: nat,
    duration: int,
    location: string,
    maxParticipants: int,
    status: string)

  /** `session_participants`: one user's participation in one session. */
  datatype Participation = Participation(sessionId: nat, userId: nat, status: string)

  datatype Store = Store(
    users: Table<User>,
    courses: Table<Course>,
    enrollments: Table<Enrollment>,
    sessions: Table<StudySession>,
    participants: Table<Participation>)

  /** Column default of `session_participants.status`. */
  const Confirmed: string := "confirmed"
  /** Column default of `study_sessions.status`. */
  const Open: string := "open"
  /** What the session listing reports for a caller with no participation row. */
  const NotJoined: string := "not_joined"

  /**
   What a handler reports back: the flashed message, as a tag, or
   `IdTooLarge` for the server error a URL id too large to bind ends in.
   */
  datatype Outcome =
    | Done
    | MissingField
    | UsernameOrEmailTaken
    | AlreadyEnrolled
    | AlreadyJoined
    | NotAuthenticated
    | IdTooLarge

  /**
   The largest value a statement parameter can carry: SQLite integers are
   signed 64-bit, and a larger Python int cannot be bound, so the statement
   raises before it reaches the database.
   */
  const MaxInteger: nat := 0x7FFF_FFFF_FFFF_FFFF

  /** The store after a handler ran, and what the handler reported. */
  datatype Step = Step(store: Store, outcome: Outcome)

  /** A database just created by `init_db`, before any user exists. */
  function Fresh(catalog: Table<Course>): (st: Store)
    ensures st.courses == catalog
    ensures |st.users.rows| == 0 && |st.enrollments.rows| == 0
    ensures |st.sessions.rows| == 0 && |st.participants.rows| == 0
  {
    Store(EmptyTable(), catalog, EmptyTable(), EmptyTable(), EmptyTable())
  }

  ghost predicate UniqueUsernames(rows: seq<Row<User>>) {
    forall a, b :: a in rows && b in rows && a.val.username == b.val.username ==> a.id == b.id
  }

  ghost predicate UniqueEmails(rows: seq<Row<User>>) {
    forall a, b :: a in rows && b in rows && a.val.email == b.val.email ==> a.id == b.id
  }

  /** `UNIQUE(user_id, course_id)`. */
  ghost predicate UniqueEnrollments(rows: seq<Row<Enrollment>>) {
    forall a, b :: a in rows && b in rows && a.val == b.val ==> a.id == b.id
  }

  /** `UNIQUE(session_id, user_id)`; the status column takes no part. */
  ghost predicate UniqueParticipations(rows: seq<Row<Participation>>) {
    forall a, b ::
      a in rows && b in rows && a.val.sessionId == b.val.sessionId && a.val.userId == b.val.userId
      ==> a.id == b.id
  }

  /** Every constraint the schema declares and SQLite enforces. */
  ghost predicate Valid(st: Store) {
    && WellFormed(st.users)
    && WellFormed(st.courses)
    && WellFormed(st.enrollments)
    && WellFormed(st.sessions)
    && WellFormed(st.participants)
    && UniqueUsernames(st.users.rows)
    && UniqueEmails(st.users.rows)
    && UniqueEnrollments(st.enrollments.rows)
    && UniqueParticipations(st.participants.rows)
  }

  lemma FreshIsValid(catalog: Table<Course>)
    requires WellFormed(catalog)
    ensures Valid(Fresh(catalog))
  {
  }

  /** Matches the one `user_courses` row a (user, course) pair may have. */
  function PairIs(userId: nat, courseId: nat): Enrollment -> bool {
    (e: Enrollment) => e == Enrollment(userId, courseId)
  }

  /** Matches the one participation row a (session, user) pair may have. */
  function ParticipationOf(sessionId: nat, userId: nat): Participation -> bool {
    (p: Participation) => p.sessionId == sessionId && p.userId == userId
  }

  /** The caller has a `user_courses` row for the course. */
  predicate IsEnrolled(st: Store, userId: nat, courseId: nat) {
    exists e :: e in st.enrollments.rows && e.val == Enrollment(userId, courseId)
  }

  /** The caller has a `session_participants` row for the session, whatever its status. */
  predicate HasJoined(st: Store, sessionId: nat, userId: nat) {
    exists p :: p in st.participants.rows && p.val.sessionId == sessionId && p.val.userId == userId
  }
}

=== FILE: study_sessions.dfy ===
/**
 The study-session handlers `create_session`, `join_session` and
 `leave_session`. None of them checks that the course or session named by
 the request exists, and none looks at a session's capacity or status.
 */
module StudySessions {
  import opened Tables
  import opened Schema

  /** The fields of the creation form, as submitted. */
  datatype SessionForm = SessionForm(
    courseId: nat,
    title: string,
    description: string,
    date: nat,
    time: nat,
    duration: int,
    location: string,
    maxParticipants: int)

  /**
   `create_session`: one new session row owned by the caller. The insert
   names every form column, so the form's duration and capacity are
   stored as given and only the status takes its column default, "open".
   */
  function CreateSession(st: Store, creatorId: nat, form: SessionForm): (r: Step)
    ensures r.outcome == Done
    ensures r.store.(sessions := st.sessions) == st
    ensures var before := st.sessions.rows;
      var after := r.store.sessions.rows;
      && |after| == |before| + 1
      && after[..|before|] == before
      && after[|before|].id == st.sessions.next
      && after[|before|].val.creatorId == creatorId
      && after[|before|].val.status == Open
      && after[|before|].val == StudySession(creatorId, form.courseId, form.title, form.description,
                                             form.date, form.time, form.duration, form.location,
                                             form.maxParticipants, Open)
  {
    var s := StudySession(creatorId, form.courseId, form.title, form.description,
                          form.date, form.time, form.duration, form.location,
                          form.maxParticipants, Open);
    Step(st.(sessions := Insert(st.sessions, s)), Done)
  }

  lemma CreateSessionPreservesValid(st: Store, creatorId: nat, form: SessionForm)
    requires Valid(st)
    ensures Valid(CreateSession(st, creatorId, form).store)
  {
  }

  /**
   `join_session`: inserts a "confirmed" participation; when
   `UNIQUE(session_id, user_id)` rejects the insert the handler reports
   "already joined" and nothing changes.
   */
  function Join(st: Store, userId: nat, sessionId: nat): (r: Step)
    ensures r.outcome == AlreadyJoined <==> HasJoined(st, sessionId, userId)
    ensures r.outcome in {Done, AlreadyJoined}
    ensures HasJoined(r.store, sessionId, userId)
    ensures r.store.(participants := st.participants) == st
    ensures r.outcome == AlreadyJoined ==> r.store == st
    ensures r.outcome == Done ==>
      var before := st.participants.rows;
      var after := r.store.participants.rows;
      && |after| == |before| + 1
      && after[..|before|] == before
      && after[|before|] == Row(st.participants.next, Participation(sessionId, userId, Confirmed))
  {
    if HasJoined(st, sessionId, userId) then
      Step(st, AlreadyJoined)
    else
      var participants := Insert(st.participants, Participation(sessionId, userId, Confirmed));
      assert participants.rows[|st.participants.rows|] in participants.rows;
      Step(st.(participants := participants), Done)
  }

  lemma JoinPreservesValid(st: Store, userId: nat, sessionId: nat)
    requires Valid(st)
    ensures Valid(Join(st, userId, sessionId).store)
  {
    var r := Join(st, userId, sessionId);
    if r.outcome == Done {
      var added := Row(st.participants.next, Participation(sessionId, userId, Confirmed));
      assert forall x :: x in r.store.participants.rows ==> x in st.participants.rows || x == added;
      assert forall x :: x in st.participants.rows ==>
        !(x.val.sessionId == sessionId && x.val.userId == userId) && x.id != added.id;
    }
  }

  /** Joining again changes nothing and reports "already joined". */
  lemma JoinIdempotent(st: Store, userId: nat, sessionId: nat)
    ensures var once := Join(st, userId, sessionId).store;
      Join(once, userId, sessionId) == Step(once, AlreadyJoined)
  {
  }

  /** However often a user joins, the session holds exactly one row for them. */
  lemma JoinedPairHasOneRow(st: Store, userId: nat, sessionId: nat)
    requires Valid(st) && HasJoined(st, sessionId, userId)
    ensures |Where(st.participants.rows, ParticipationOf(sessionId, userId))| == 1
  {
    AtMostOneMatch(st.participants.rows, ParticipationOf(sessionId, userId));
    var p :| p in st.participants.rows && p.val.sessionId == sessionId && p.val.userId == userId;
    WhereNonEmpty(st.participants.rows, ParticipationOf(sessionId, userId), p);
  }

  /**
   Joining never reads the sessions table: capacity (`max_participants`)
   and status have no say, so a full or closed session can still be joined.
   */
  lemma JoinIgnoresSessions(st: Store, sessions: Table<StudySession>, userId: nat, sessionId: nat)
    ensures var r := Join(st.(sessions := sessions), userId, sessionId);
      && r.outcome == Join(st, userId, sessionId).outcome
      && r.store == Join(st, userId, sessionId).store.(sessions := sessions)
  {
    assert HasJoined(st.(sessions := sessions), sessionId, userId) == HasJoined(st, sessionId, userId);
  }

  /** `leave_session`: deletes the caller's participation in that session, if any. */
  function Leave(st: Store, userId: nat, sessionId: nat): (r: Step)
    ensures r.outcome == Done
    ensures r.store.(participants := st.participants) == st
    ensures r.store.participants.next == st.participants.next
    ensures forall p :: p in r.store.participants.rows <==>
      p in st.participants.rows && !(p.val.sessionId == sessionId && p.val.userId == userId)
    ensures !HasJoined(r.store, sessionId, userId)
  {
    Step(st.(participants := DeleteWhere(st.participants, ParticipationOf(sessionId, userId))), Done)
  }

  lemma LeavePreservesValid(st: Store, userId: nat, sessionId: nat)
    requires Valid(st)
    ensures Valid(Leave(st, userId, sessionId).store)
  {
  }

  /** Leaving a session one has not joined is a no-op. */
  lemma LeaveAbsentIsNoop(st: Store, userId: nat, sessionId: nat)
    requires !HasJoined(st, sessionId, userId)
    ensures Leave(st, userId, sessionId) == Step(st, Done)
  {
    WhereKeepsAll(st.participants.rows, Not(ParticipationOf(sessionId, userId)));
  }

  /**
   After leaving, joining succeeds again and creates a fresh row: it takes
   the counter's rowid, which no row of the store before the leave carries.
   */
  lemma JoinAfterLeave(st: Store, userId: nat, sessionId: nat)
    requires Valid(st)
    ensures var left := Leave(st, userId, sessionId).store;
      var r := Join(left, userId, sessionId);
      && r.outcome == Done
      && Row(st.participants.next, Participation(sessionId, userId, Confirmed)) in r.store.participants.rows
      && forall p :: p in st.participants.rows ==> p.id != st.participants.next
  {
    var left := Leave(st, userId, sessionId).store;
    var after := Join(left, userId, sessionId).store.participants.rows;
    assert after[|left.participants.rows|] in after;
  }

  /**
   Leave undoes a fresh join: the rows are back as they were; only the rowid
   counter remembers the insert.
   */
  lemma LeaveUndoesJoin(st: Store, userId: nat, sessionId: nat)
    requires !HasJoined(st, sessionId, userId)
    ensures var joined := Join(st, userId, sessionId).store;
      Leave(joined, userId, sessionId).store
        == st.(participants := Table(st.participants.rows, st.participants.next + 1))
  {
    var rows := st.participants.rows;
    var added := Row(st.participants.next, Participation(sessionId, userId, Confirmed));
    var keep := Not(ParticipationOf(sessionId, userId));
    var joined := Join(st, userId, sessionId).store;
    assert joined.participants == Table(rows + [added], st.participants.next + 1);
    WhereAppend(rows, [added], keep);
    WhereKeepsAll(rows, keep);
    assert [added][1..] == [] && !keep(added.val);
    assert Where([added], keep) == [];
    assert Where(rows + [added], keep) == rows;
  }

  /**
   Creating a session adds no participant: the creator is not joined to it.
   Since foreign keys go unchecked, a participation row could already name the
   id the new session receives (a join on a session that did not exist yet);
   the second precondition rules out such dangling rows.
   */
  lemma CreatorIsNotAutoJoined(st: Store, creatorId: nat, form: SessionForm)
    requires Valid(st)
    requires forall p :: p in st.participants.rows ==> p.val.sessionId < st.sessions.next
    ensures var after := CreateSession(st, creatorId, form).store;
      !HasJoined(after, st.sessions.next, creatorId)
  {
  }
}

=== FILE: tables.dfy ===
/**
 A relational table with an `INTEGER PRIMARY KEY AUTOINCREMENT` column, the
 shape every table of the Study Buddy schema has. Rows are kept in rowid
 order; `next` is the rowid the next successful insert receives (one more
 than the largest rowid ever handed out, so a deleted rowid is never reused).
 */
module Tables {

  datatype Option<+T> = None | Some(value: T)

  /** One row: its rowid and the values of its other columns. */
  datatype Row<T> = Row(id: nat, val: T)

  datatype Table<T> = Table(rows: seq<Row<T>>, next: nat)

  /** A freshly created table: no rows, the first rowid handed out is 1. */
  function EmptyTable<T>(): (t: Table<T>)
    ensures |t.rows| == 0 && t.next == 1
  {
    Table([], 1)
  }

  /** Rowids strictly increase along the table (so they are distinct). */
  ghost predicate Increasing<T>(rows: seq<Row<T>>) {
    forall i, j :: 0 <= i < j < |rows| ==> rows[i].id < rows[j].id
  }

  /** The primary-key invariant: distinct rowids, all below the counter. */
  ghost predicate WellFormed<T>(t: Table<T>) {
    && Increasing(t.rows)
    && forall r :: r in t.rows ==> r.id < t.next
  }

  ghost predicate Distinct<T>(s: seq<T>) {
    forall i, j :: 0 <= i < j < |s| ==> s[i] != s[j]
  }

  lemma IncreasingIsDistinct<T>(rows: seq<Row<T>>)
    requires Increasing(rows)
    ensures Distinct(rows)
  {
    forall i, j | 0 <= i < j < |rows|
      ensures rows[i] != rows[j]
    {
      assert rows[i].id < rows[j].id;
    }
  }

  lemma ConsDistinct<T>(h: T, t: seq<T>)
    requires Distinct(t) && h !in t
    ensures Distinct([h] + t)
  {
    var s := [h] + t;
    forall i, j | 0 <= i < j < |s|
      ensures s[i] != s[j]
    {
      assert s[j] == t[j - 1];
      if i > 0 {
        assert s[i] == t[i - 1];
      }
    }
  }

  /** `INSERT`: the new row gets rowid `next`, and the counter advances. */
  function Insert<T(!new)>(t: Table<T>, v: T): (r: Table<T>)
    ensures |r.rows| == |t.rows| + 1 && r.rows[..|t.rows|] == t.rows
    ensures r.rows[|t.rows|] == Row(t.next, v)
    ensures r.next == t.next + 1
    ensures forall x :: x in r.rows <==> x in t.rows || x == Row(t.next, v)
    ensures WellFormed(t) ==> WellFormed(r)
    ensures WellFormed(t) ==> forall x :: x in t.rows ==> x.id != t.next
  {
    var r := Table(t.rows + [Row(t.next, v)], t.next + 1);
    assert r.rows[..|t.rows|] == t.rows;
    r
  }

  function Not<T>(p: T -> bool): T -> bool {
    x => !p(x)
  }

  /** The rows whose values satisfy `keep`, in table order (`SELECT ... WHERE`). */
  function Where<T(!new)>(rows: seq<Row<T>>, keep: T -> bool): (r: seq<Row<T>>)
    ensures |r| <= |rows|
    ensures forall x :: x in r <==> x in rows && keep(x.val)
    ensures Increasing(rows) ==> Increasing(r)
  {
    if |rows| == 0 then []
    else
      var rest := Where(rows[1..], keep);
      if keep(rows[0].val) then
        assert Increasing(rows) ==> Increasing([rows[0]] + rest) by {
          if Increasing(rows) {
            TailIncreasing(rows);
            ConsIncreasing(rows[0], rest);
          }
        }
        [rows[0]] + rest
      else
        rest
  }

  lemma TailIncreasing<T>(rows: seq<Row<T>>)
    requires Increasing(rows) && |rows| > 0
    ensures Increasing(rows[1..])
    ensures forall x :: x in rows[1..] ==> rows[0].id < x.id
  {
    forall x | x in rows[1..]
      ensures rows[0].id < x.id
    {
      var k :| 0 <= k < |rows[1..]| && rows[1..][k] == x;
      assert rows[k + 1] == x;
    }
  }

  lemma ConsIncreasing<T>(head: Row<T>, tail: seq<Row<T>>)
    requires Increasing(tail)
    requires forall x :: x in tail ==> head.id < x.id
    ensures Increasing([head] + tail)
  {
    var s := [head] + tail;
    forall i, j | 0 <= i < j < |s|
      ensures s[i].id < s[j].id
    {
      assert s[j] == tail[j - 1];
      if i > 0 {
        assert s[i] == tail[i - 1];
      }
    }
  }

  /** `DELETE ... WHERE`: drops exactly the matching rows; the counter is kept. */
  function DeleteWhere<T(!new)>(t: Table<T>, doomed: T -> bool): (r: Table<T>)
    ensures r.next == t.next
    ensures forall x :: x in r.rows <==> x in t.rows && !doomed(x.val)
    ensures WellFormed(t) ==> WellFormed(r)
    ensures |r.rows| <= |t.rows|
  {
    Table(Where(t.rows, Not(doomed)), t.next)
  }

  /** The first row with the given rowid, as a primary-key lookup. */
  function Lookup<T>(rows: seq<Row<T>>, id: nat): (r: Option<Row<T>>)
    ensures r.Some? ==> r.value in rows && r.value.id == id
    ensures r.None? <==> forall x :: x in rows ==> x.id != id
  {
    if |rows| == 0 then None
    else if rows[0].id == id then Some(rows[0])
    else Lookup(rows[1..], id)
  }

  /** With distinct rowids the lookup finds the one row carrying that rowid. */
  lemma {:induction false} LookupFinds<T>(rows: seq<Row<T>>, x: Row<T>)
    requires Increasing(rows) && x in rows
    ensures Lookup(rows, x.id) == Some(x)
  {
    if rows[0] != x {
      assert x in rows[1..];
      var k :| 0 <= k < |rows[1..]| && rows[1..][k] == x;
      assert rows[k + 1] == x;
      assert rows[0].id != x.id;
      LookupFinds(rows[1..], x);
    }
  }

  /** A filter that keeps every row leaves the sequence as it is. */
  lemma {:induction false} WhereKeepsAll<T(!new)>(rows: seq<Row<T>>, keep: T -> bool)
    requires forall x :: x in rows ==> keep(x.val)
    ensures Where(rows, keep) == rows
  {
    if |rows| > 0 {
      assert rows[0] in rows && keep(rows[0].val);
      assert forall x :: x in rows[1..] ==> x in rows;
      WhereKeepsAll(rows[1..], keep);
      assert Where(rows, keep) == [rows[0]] + Where(rows[1..], keep);
      assert rows == [rows[0]] + rows[1..];
    }
  }

  lemma {:induction false} WhereAppend<T(!new)>(a: seq<Row<T>>, b: seq<Row<T>>, keep: T -> bool)
    ensures Where(a + b, keep) == Where(a, keep) + Where(b, keep)
  {
    if |a| == 0 {
      assert a + b == b;
    } else {
      assert (a + b)[0] == a[0];
      assert (a + b)[1..] == a[1..] + b;
      WhereAppend(a[1..], b, keep);
    }
  }

  /** A filter that keeps no row yields nothing. */
  lemma WhereKeepsNone<T(!new)>(rows: seq<Row<T>>, keep: T -> bool)
    requires forall x :: x in rows ==> !keep(x.val)
    ensures Where(rows, keep) == []
  {
  }

  /** Every row lands on exactly one side of a filter and its complement. */
  lemma {:induction false} WhereSplits<T(!new)>(rows: seq<Row<T>>, keep: T -> bool)
    ensures |Where(rows, keep)| + |Where(rows, Not(keep))| == |rows|
  {
    if |rows| > 0 {
      WhereSplits(rows[1..], keep);
    }
  }

  /** If all matching rows share one rowid, at most one row matches. */
  lemma {:induction false} AtMostOneMatch<T(!new)>(rows: seq<Row<T>>, keep: T -> bool)
    requires Increasing(rows)
    requires forall a, b :: a in rows && b in rows && keep(a.val) && keep(b.val) ==> a.id == b.id
    ensures |Where(rows, keep)| <= 1
  {
    if |rows| > 0 {
      var rest := rows[1..];
      TailIncreasing(rows);
      assert forall x :: x in rest ==> x in rows;
      if keep(rows[0].val) {
        forall x | x in rest
          ensures !keep(x.val)
        {
          assert rows[0].id < x.id;
        }
        WhereKeepsNone(rest, keep);
      } else {
        AtMostOneMatch(rest, keep);
      }
    }
  }

  /** If some row matches, the filter is not empty. */
  lemma WhereNonEmpty<T(!new)>(rows: seq<Row<T>>, keep: T -> bool, x: Row<T>)
    requires x in rows && keep(x.val)
    ensures |Where(rows, keep)| >= 1
  {
    assert x in Where(rows, keep);
  }

  /** A row occurring at two positions occurs at least twice. */
  lemma TwoPositionsCount<T>(s: seq<T>, i: nat, j: nat)
    requires i < j < |s| && s[i] == s[j]
    ensures multiset(s)[s[i]] >= 2
  {
    assert s == s[..j] + s[j..];
    assert s[i] in s[..j] && s[j] in s[j..];
    assert multiset(s) == multiset(s[..j]) + multiset(s[j..]);
  }

  lemma {:induction false} DistinctOnce<T>(s: seq<T>, x: T)
    requires Distinct(s)
    ensures multiset(s)[x] <= 1
  {
    if |s| > 0 {
      var t := s[1..];
      assert s == [s[0]] + t;
      assert Distinct(t) by {
        forall i, j | 0 <= i < j < |t| ensures t[i] != t[j] {
          assert t[i] == s[i + 1] && t[j] == s[j + 1];
        }
      }
      DistinctOnce(t, x);
      if s[0] == x {
        assert x !in t;
      }
    }
  }

  /**
   Any reordering of rows with distinct rowids still carries each rowid at
   most once (one output row per `GROUP BY` key).
   */
  lemma PermutedRowsKeepIds<T>(rows: seq<Row<T>>, r: seq<Row<T>>)
    requires Increasing(rows) && multiset(r) == multiset(rows)
    ensures forall i, j :: 0 <= i < j < |r| ==> r[i].id != r[j].id
  {
    IncreasingIsDistinct(rows);
    forall i, j | 0 <= i < j < |r|
      ensures r[i].id != r[j].id
    {
      if r[i].id == r[j].id {
        assert r[i] in multiset(rows) && r[j] in multiset(rows);
        var a :| 0 <= a < |rows| && rows[a] == r[i];
        var b :| 0 <= b < |rows| && rows[b] == r[j];
        assert a == b;
        TwoPositionsCount(r, i, j);
        DistinctOnce(rows, r[i]);
      }
    }
  }
}
